=== FILE: README.md ===
# Title assignment for new members, in Dafny

When someone joins the Discord server, the bot in `botnick.py` runs a short dialogue,
`run_title_sequence`. This project models that dialogue and proves properties of the model.

The dialogue works like this:

- The bot draws random `"Modifier Noun"` titles from two word pools and keeps each one
  not yet in `used_titles`. It stops after 5 kept titles or 100 draws.
- It offers the five options by private message.
- It waits for three answers from the member, each with its own filter: a number from
  1 to 5, a name of at most 32 characters, and `before` or `after`.
- It builds the nickname from the answers.
- The chosen title is retired as soon as the number is accepted. It goes into the
  in-memory set, and one line is appended to `used_titles.txt`.
- If no accepted reply arrives within 60 seconds at any step, the nickname becomes
  `Unrenowned <name>` instead. Replies the filter rejects do not restart the wait. A
  timeout after the choice still leaves the chosen title retired.

The modules follow the program's parts:

| module | file | what it holds |
|---|---|---|
| `Wrappers` | wrappers.dfy | `Option` and `Result` |
| `Text` | text.dfy | `str.strip`, `str.lower` and `str.isdigit`/`int` over ASCII |
| `Lines` | lines.dfy | `f.readlines()` (`ReadLines`) and `str.splitlines()` (`SplitLines`) |
| `WordPool` | word_pool.dfy | `load_words_from_file` |
| `Registry` | registry.dfy | `load_used_titles`, `save_used_title`, and the registry (the in-memory set paired with the file text) |
| `Generator` | generator.dfy | the generation loop (`GenerateOptions`) and its reference definition (`Generate`) |
| `Replies` | replies.dfy | `check_choice`, `check_name`, `check_order`, and the value each accepted reply yields |
| `Labels` | labels.dfy | `final_title` and `fallback_nick` |
| `Onboarding` | onboarding.dfy | the dialogue as a state machine over replies and timeouts |

Three things in the source are not pure, and the model turns each into an input:

- **Randomness.** Draw number `k` (counting from 0) is `draw(k)`, a pair of naturals.
  It picks `modifiers[draw(k).0 % |modifiers|]` and `nouns[draw(k).1 % |nouns|]`.
  Every sequence of choices is the image of some oracle.
- **Files.** A file is its text, and `None` stands for a file that does not exist.
  The title file is kept as text rather than as a list of lines. `readlines` then
  shows what happens to a file that does not end in `\n`.
- **Waits.** The expiry of a 60-second wait is an explicit `Timeout` event.

## Model

| member | source | states |
|---|---|---|
| Text.StripLeft | botnick.py:79 | the result is a suffix of the input; everything dropped is whitespace; the result does not start with whitespace |
| Text.StripRight | botnick.py:79 | the result is a prefix of the input; everything dropped is whitespace; the result does not end with whitespace |
| Text.Strip | botnick.py:79 | the result has no whitespace at either end and is no longer than the input |
| Text.LemmaStripUnique | botnick.py:13 | stripping whitespace padding from a stripped core gives back exactly that core |
| Text.LemmaStripStripped | botnick.py:13 | a string with no surrounding whitespace strips to itself |
| Text.LemmaStripIdempotent | botnick.py:79 | stripping twice is the same as stripping once |
| Text.LemmaStripTrailingSpace | botnick.py:13 | trailing whitespace does not change the stripped form |
| Text.LemmaStripNewline | botnick.py:13 | the `\n` that `readlines` leaves on a line does not change the stripped form |
| Text.LemmaLowerMatches | botnick.py:83 | for a lower-case word `w`, `lower(s) == w` holds exactly when every character of `s` is the letter of `w` in either case |
| Text.Lower | botnick.py:83-85 | lower-casing keeps the length; `LemmaLowerMatches` gives which replies lower-case to a given word |
| Text.DigitsValue | botnick.py:67-69 | `int()` of a digit string, leading zeros allowed; `LemmaDigitsValueZero` and `Replies.LemmaChoiceAccepted` characterise its values |
| Text.LemmaDigitsValueZero | botnick.py:67 | a digit string has value 0 exactly when it is all zeros, so `0` and `00` are outside 1..5 |
| Lines.ReadLines | botnick.py:13 | an empty file has no lines and a non-empty one has some; `LemmaReadLinesConcat` and `LemmaReadLinesShape` pin the lines down |
| Lines.LemmaReadLinesConcat | botnick.py:13 | the lines `readlines` returns concatenate back to the whole file |
| Lines.LemmaReadLinesShape | botnick.py:13 | every line is non-empty and holds `\n` at most at its end; every line but the last ends with `\n` |
| Lines.LemmaReadLinesAppendLine | botnick.py:13-17 | appending a complete line to a file that is empty or ends in `\n` adds exactly that line to what `readlines` returns |
| Lines.LemmaReadLinesAppend | botnick.py:13-17 | appending `title + "\n"` (with no `\n` in `title`) to such a file adds exactly the line `title + "\n"` |
| Lines.SplitLines | botnick.py:30 | no line contains a line boundary; there are never more lines than characters |
| Lines.LemmaSplitJoin | botnick.py:30 | a text written one line per entry, each ended by `\n`, splits back into exactly those entries |
| Lines.LemmaSplitJoinLast | botnick.py:30 | a text of `\n`-terminated lines followed by one unterminated, non-empty line splits into those lines and then the last one, which is kept |
| WordPool.LoadWordsFromFile | botnick.py:26-31 | a missing file gives no words; no word contains a line boundary |
| WordPool.LemmaLoadWordsRoundTrip | botnick.py:26-31 | a word file written one word per line loads back as exactly those words, in order |
| WordPool.LemmaLoadWordsUnterminated | botnick.py:26-31 | a word file whose last word has no final newline loads back as the earlier words followed by that last word |
| Registry.LoadUsedTitles | botnick.py:9-13 | a missing file loads as the empty set; every loaded title has no surrounding whitespace |
| Registry.SaveUsedTitle | botnick.py:15-17 | the file exists afterwards and ends in `\n`; for a file that was empty or ended in `\n`, and a title without `\n`, `readlines` sees the old lines plus one new line holding the title |
| Registry.LemmaAppendTitleLine | botnick.py:15-17 | appending `title` and `\n` to a file that is empty or ends in `\n` adds exactly one line for `readlines` |
| Registry.LemmaSaveThenLoad | botnick.py:9-17 | loading after a save gives the old set plus the stripped title, and nothing else |
| Registry.LemmaSavedTitleReloads | botnick.py:9-17 | a saved title with no surrounding whitespace is in the set loaded afterwards |
| Registry.LemmaStrippedSetAppendLine | botnick.py:13 | one more saved line adds exactly its stripped title to the loaded set |
| Registry.Startup | botnick.py:37 | the registry keeps the file as it is, and starts with an empty set when there is no file |
| Registry.Reserve | botnick.py:70-71 | the title is in the set afterwards; the set only grows, by at most that title; when the file is empty or ends in `\n` and the title has no `\n`, the file gains exactly one line, the title |
| Registry.LemmaStartupConsistent | botnick.py:37 | at start-up the in-memory set equals what the file reloads to |
| Registry.LemmaReserveKeepsConsistent | botnick.py:70-71 | retiring a title with no surrounding whitespace and no `\n` keeps the set equal to what the file reloads to |
| Registry.LemmaUnstrippedTitleLostOnReload | botnick.py:13-17 | a title that starts with whitespace is in the in-memory set after retirement, yet is not in the set the file reloads to |
| Registry.LemmaUnterminatedStoreMergesLines | botnick.py:13-17 | saving to a file whose last line lacks `\n` reloads as the earlier lines plus one entry, that last line and the title glued together |
| Generator.Title | botnick.py:50 | the f-string `f"{modifier} {noun}"`; `Generator.LemmaTitleParts` states what it holds |
| Generator.Candidate | botnick.py:50 | the two `random.choice` draws of one attempt, as indices from the oracle; `Generator.LemmaCandidateTitle` states that it is always a title the pools can form |
| Generator.LemmaTitleParts | botnick.py:50 | a title is its modifier, one space, then its noun, and each part can be cut back out |
| Generator.LemmaCandidateTitle | botnick.py:50 | every drawn title is some modifier of the pool, a space, and some noun of the pool |
| Generator.Kept | botnick.py:49-53 | `k` draws keep at most `k` options |
| Generator.LemmaKeptStep | botnick.py:49-53 | one draw adds at most one option |
| Generator.LemmaKeptMonotone | botnick.py:49-53 | more draws never keep fewer options |
| Generator.LemmaKeptUnused | botnick.py:51-52 | no kept option is in the used set |
| Generator.LemmaKeptTitles | botnick.py:50-52 | every kept option has the form `modifiers[i] + " " + nouns[j]` |
| Generator.StopPoint | botnick.py:49 | the loop stops at the first draw count that reaches 5 options, or at 100 |
| Generator.LemmaStopPointIs | botnick.py:49 | any count that meets the exit condition, with no earlier count meeting it, is where the loop stops |
| Generator.LemmaStopPointCount | botnick.py:49-53 | the loop never collects more than 5 options |
| Generator.LemmaStopOutcome | botnick.py:49-57 | where the loop stops there are at most 5 options, all unused; fewer than 5 only after all 100 draws; 5 exactly when all 100 draws would keep 5 |
| Generator.Generate | botnick.py:47-57 | the empty-pool failure happens exactly when a pool is empty; success offers exactly 5 options, none of them used; `Exhausted` means 100 draws kept fewer than 5 |
| Generator.LemmaGenerateAt | botnick.py:55-57 | below 5 options at the stop point the outcome is `Exhausted`, otherwise the options kept |
| Generator.LemmaGenerateOffers | botnick.py:47-57 | with non-empty pools, generation succeeds exactly when 100 draws would keep 5 unused titles, and success offers the options kept where the loop stops |
| Generator.LemmaGenerateTitles | botnick.py:50-57 | every option offered is a title the two pools can form |
| Generator.GenerateOptions | botnick.py:47-57 | the loop ends after at most 100 draws and agrees with `Generate`; `Exhausted` only after all 100 draws; success takes at least 5 draws |
| Generator.LemmaLoopExit | botnick.py:49-57 | at the loop's exit, fewer than 5 options means 100 draws and `Exhausted`; otherwise the kept options are the result |
| Generator.LemmaSaturatedKeepsNothing | botnick.py:49-53 | when every title the pools can form is used, no draw keeps anything |
| Generator.LemmaSaturatedPoolExhausts | botnick.py:55-57 | when every title the pools can form is used, generation fails with `Exhausted` whatever the draws |
| Generator.LemmaSingletonKept | botnick.py:49-53 | with one modifier and one noun whose title is unused, `k` draws keep that title `k` times, whatever the draws |
| Generator.LemmaDuplicateOptions | botnick.py:51-52 | with one modifier and one noun whose title is unused, generation succeeds and offers that same title five times, whatever the draws |
| Generator.LemmaCleanTitle | botnick.py:50 | a title made from words with no surrounding whitespace and no line boundary has no surrounding whitespace and no `\n` |
| Replies.CheckChoice | botnick.py:67 | `check_choice`; `Replies.LemmaChoiceAccepted` states exactly which replies it accepts |
| Replies.CheckName | botnick.py:77 | `check_name`; `Replies.LemmaNameAccepted` states what an accepted name is |
| Replies.CheckOrder | botnick.py:83 | `check_order`; `Replies.LemmaOrderAccepted` states exactly which replies it accepts |
| Replies.ChoiceIndex | botnick.py:69 | the index a valid number selects is below 5 |
| Replies.LemmaChoiceAccepted | botnick.py:67-69 | a reply passes `check_choice` exactly when it is from the member and is all digits with value 1..5; the selected index is that value minus 1 |
| Replies.AcceptedName | botnick.py:79 | the name kept has no surrounding whitespace and is no longer than the reply |
| Replies.LemmaPaddedNameAccepted | botnick.py:77-79 | a name surrounded by any whitespace is accepted exactly when the name itself (the stripped reply) has at most 32 characters, and the accepted name is that name without the padding |
| Replies.LemmaNameAccepted | botnick.py:77-79 | an accepted name is at most 32 characters; a reply from the member that is already stripped and short enough is accepted unchanged |
| Replies.AcceptedPosition | botnick.py:85 | the position kept has the length of the reply |
| Replies.LemmaOrderAccepted | botnick.py:83-85 | a reply passes `check_order` exactly when it is from the member and spells `before` or `after` in any case; the position kept is then `before` or `after` |
| Replies.LemmaRepliesIgnoreChannel | botnick.py:67-83 | none of the three filters depends on the channel of the reply |
| Replies.LemmaOtherAuthorsIgnored | botnick.py:67-83 | a reply from anyone other than the member passes none of the filters |
| Labels.FinalLabel | botnick.py:87 | with `before` the nickname is the title, one space, then something as long as the name; otherwise it is something as long as the name, then `, `, then the title (with `LemmaFinalLabelRoundTrip`, that something is the name) |
| Labels.LemmaFinalLabelRoundTrip | botnick.py:87 | the name can be recovered from the nickname, given the title and the position |
| Labels.LemmaFinalLabelInjective | botnick.py:87 | for a given title and position, different names give different nicknames |
| Labels.FallbackLabel | botnick.py:116 | the fallback nickname is `Unrenowned ` followed by something as long as the member name |
| Labels.LemmaFallbackRoundTrip | botnick.py:116 | what follows `Unrenowned ` in the fallback nickname is the member name |
| Onboarding.Start | botnick.py:46-65 | the dialogue either fails, or offers exactly 5 unused titles the pools can form; it fails with the empty-pool error exactly when a pool is empty; with non-empty pools it offers options exactly when 100 draws would keep 5, and what it offers is the options kept where the loop stops; nothing is retired yet |
| Onboarding.Step | botnick.py:67-117 | the set only grows; a timeout in any waiting phase gives `Unrenowned <name>` with the registry unchanged; a rejected reply changes nothing; an ended dialogue ignores events; only the choice touches the registry |
| Onboarding.Run | botnick.py:44-128 | any sequence of events keeps the phase well formed and the member the same |
| Onboarding.LemmaRunSingle | botnick.py:44-128 | running one event is one step |
| Onboarding.LemmaStartInv | botnick.py:46-65 | a freshly started dialogue satisfies the phase invariant |
| Onboarding.LemmaStepKeepsInv | botnick.py:67-117 | each step keeps the invariant: the chosen title stays retired, the name is stripped and at most 32 characters, the position is `before` or `after`, and the nickname is built from them |
| Onboarding.LemmaRunKeepsInv | botnick.py:44-128 | the invariant holds after any sequence of events |
| Onboarding.LemmaChoiceReserves | botnick.py:67-71 | an accepted number selects that option, which was not retired before; the set gains exactly that title; when the file is empty or ends in `\n` and the title has no `\n`, the file gains exactly one line holding it |
| Onboarding.LemmaNameRecorded | botnick.py:77-79 | an accepted name is recorded as the stripped reply next to the chosen title; the registry does not change |
| Onboarding.LemmaPositionRecorded | botnick.py:83-87 | a reply from the member spelling `before` in any case completes with `<title> <name>`; one spelling `after` completes with `<name>, <title>`; the registry does not change |
| Onboarding.LemmaStepReservedSoFar | botnick.py:68-117 | each step keeps the record of what was retired: nothing before the choice, exactly the chosen option after it |
| Onboarding.LemmaRunReservedSoFar | botnick.py:44-128 | that record holds after any sequence of events |
| Onboarding.LemmaSessionReservesAtMostOnce | botnick.py:44-128 | one dialogue leaves the registry unchanged or retires exactly one previously free title the pools can form; a dialogue whose generation failed changes nothing |
| Onboarding.LemmaRunTerminal | botnick.py:44-128 | once the dialogue has ended, no event changes it |
| Onboarding.LemmaSessionKeepsConsistent | botnick.py:69-71 | with clean word pools, the in-memory set still equals what the file reloads to after any dialogue |
| Onboarding.LemmaTimeoutAtChoice | botnick.py:114-117 | a timeout at the choice step gives the fallback nickname and leaves every offered option free |
| Onboarding.LemmaTimeoutAfterChoice | botnick.py:114-117 | a timeout at the name or position step gives the fallback nickname, and the chosen title stays retired |
| Onboarding.LemmaCompletionScenario | botnick.py:67-87 | from five offered options, the replies `abc`, `7`, `2`, `Thorne`, `before` give `Frost Hawk Thorne` and retire only `Frost Hawk` |
| Onboarding.LemmaScenarioIgnored | botnick.py:67 | the replies `abc` and `7` fail `check_choice` |
| Onboarding.LemmaScenarioChoice | botnick.py:67-69 | the reply `2` passes `check_choice` and selects the second option |
| Onboarding.LemmaScenarioNameAndPosition | botnick.py:77-85 | the replies `Thorne` and `before` pass their filters and are kept as they are |
| Onboarding.LemmaEmptyPoolFails | botnick.py:50 | with an empty noun pool, the dialogue ends in the empty-pool failure at once, and no event changes it or the registry |

## Left out

- Discord transport is not modelled: intents, `bot.wait_for`, DM creation, `member.edit`, channel lookup, and the `retitle` command with its error handler (botnick.py:20-23, 40-42, 131-155). These are calls into a foreign library. A reply is a `Message` record, and the wait is the sequence of events.
- Wall-clock time, asyncio scheduling and concurrent dialogues are not modelled. Timeouts are events, and one dialogue is modelled at a time. Two concurrent dialogues can offer and retire the same title, because the source has no locking.
- The `bot.run` call at botnick.py:157 is not modelled: it is transport, and it carries a credential.
- Python's `random` is not modelled. The oracle replaces it.
- Real file I/O is not modelled. A file is its text, or `None` when it does not exist.
- Read errors and write errors on the files are not modelled.
- Universal-newline translation of `\r` when a file is read is not modelled.
- Only ASCII is modelled for `str.isdigit`, `int()`, `str.strip`, `str.lower` and `str.splitlines`. Python also accepts non-ASCII digits, whitespace, letters and line separators.
- `print` diagnostics, the wording of DMs and log messages, and the `try`/`except` blocks that swallow `Forbidden` and other errors around the nickname change and the messages are not modelled (botnick.py:88-112, 115-128). They are best-effort side effects and change no state the model tracks. In particular, the model records the nickname that would be set; whether Discord accepts it, for example against its length limit, is left out.
- The empty pool follows the code, not the documented "generation failed" outcome. With an empty pool, `random.choice` raises `IndexError`, and the handler catches only `asyncio.TimeoutError`. So the dialogue ends without the "Title generation failed" message. The model gives this its own outcome, `EmptyPool`, rather than `Exhausted`.
- The title file is modelled as text with `readlines` semantics, not as a list of lines. This is stricter than a list: it shows that a file not ending in `\n`, or a title with surrounding whitespace, breaks the round trip (`Registry.LemmaUnterminatedStoreMergesLines`, `Registry.LemmaUnstrippedTitleLostOnReload`).
- The in-memory `add` and the file append are modelled as one step (`Registry.Reserve`). The source does them one after the other with no await in between.
- `Generator.GenerateOptions` does not return the options list on failure. The source discards it there too.

=== FILE: generator.dfy ===
/**
 * Candidate generation (botnick.py:46-57): up to 100 random draws of a modifier and a
 * noun, keeping each `"modifier noun"` not yet in `used_titles`, until 5 are kept.
 *
 * `random.choice` is replaced by an oracle: on attempt `k` the draw `draw(k)` picks
 * `modifiers[draw(k).0 % |modifiers|]` and `nouns[draw(k).1 % |nouns|]`. Every sequence
 * of in-range choices is the image of some oracle.
 */
module Generator {
  import opened Wrappers
  import opened Text
  import opened WordPool

  /** Number of options offered to a member. */
  const OptionCount: nat := 5
  /** Number of draws after which generation gives up. */
  const MaxAttempts: nat := 100

  /** Why no options could be offered. `EmptyPool` is the source's `random.choice` on an
      empty list: it raises `IndexError`, which nothing catches, so the sequence stops
      without a message to the member. `Exhausted` is the "Title generation failed"
      branch, taken when fewer than 5 options were found. */
  datatype GenError = EmptyPool | Exhausted

  /** The pair of indices `random.choice` returns on each attempt. */
  type Oracle = nat -> (nat, nat)

  /** A title: the modifier, one space, the noun (botnick.py:50). */
  function Title(modifier: string, noun: string): string {
    modifier + " " + noun
  }

  /** A title holds its modifier before the separating space and its noun after it. */
  lemma LemmaTitleParts(modifier: string, noun: string)
    ensures var t := Title(modifier, noun);
            |t| == |modifier| + 1 + |noun| && t[|modifier|] == ' ' &&
            t[..|modifier|] == modifier && t[|modifier| + 1..] == noun
  {
    var t := Title(modifier, noun);
    assert t[..|modifier|] == modifier;
    assert t[|modifier| + 1..] == noun;
  }

  /** `t` is some modifier of the pool followed by some noun of the pool. */
  predicate IsTitleOf(t: string, modifiers: seq<string>, nouns: seq<string>) {
    exists i, j :: 0 <= i < |modifiers| && 0 <= j < |nouns| && t == Title(modifiers[i], nouns[j])
  }

  /** The title drawn on attempt `k`. */
  function Candidate(modifiers: seq<string>, nouns: seq<string>, draw: Oracle, k: nat): string
    requires |modifiers| > 0 && |nouns| > 0
  {
    var i := draw(k).0 % |modifiers|;
    var j := draw(k).1 % |nouns|;
    Title(modifiers[i], nouns[j])
  }

  /** Every drawn title is a modifier of the pool, a space, and a noun of the pool. */
  lemma LemmaCandidateTitle(modifiers: seq<string>, nouns: seq<string>, draw: Oracle, k: nat)
    requires |modifiers| > 0 && |nouns| > 0
    ensures IsTitleOf(Candidate(modifiers, nouns, draw, k), modifiers, nouns)
  {
    var i := draw(k).0 % |modifiers|;
    var j := draw(k).1 % |nouns|;
    assert Candidate(modifiers, nouns, draw, k) == Title(modifiers[i], nouns[j]);
  }

  /** The options collected by the first `k` attempts: each drawn title not in `used`,
      in draw order. Nothing rejects a title already among the options (botnick.py:51
      consults `used_titles` only). */
  function Kept(modifiers: seq<string>, nouns: seq<string>, used: set<string>, draw: Oracle, k: nat)
    : (opts: seq<string>)
    requires |modifiers| > 0 && |nouns| > 0
    ensures |opts| <= k
  {
    if k == 0 then []
    else
      var prev := Kept(modifiers, nouns, used, draw, k - 1);
      var t := Candidate(modifiers, nouns, draw, k - 1);
      if t !in used then prev + [t] else prev
  }

  /** The attempt count at which the loop of botnick.py:49 stops when it has already
      made `k` attempts without stopping. */
  function StopPoint(modifiers: seq<string>, nouns: seq<string>, used: set<string>, draw: Oracle, k: nat)
    : (n: nat)
    requires |modifiers| > 0 && |nouns| > 0
    requires k <= MaxAttempts
    ensures k <= n <= MaxAttempts
    ensures n == MaxAttempts || |Kept(modifiers, nouns, used, draw, n)| >= OptionCount
    ensures forall m :: k <= m < n ==> |Kept(modifiers, nouns, used, draw, m)| < OptionCount
    decreases MaxAttempts - k
  {
    if k == MaxAttempts || |Kept(modifiers, nouns, used, draw, k)| >= OptionCount then k
    else StopPoint(modifiers, nouns, used, draw, k + 1)
  }

  /** No option kept is a used title (the check of botnick.py:51). */
  lemma {:induction false} LemmaKeptUnused(modifiers: seq<string>, nouns: seq<string>, used: set<string>,
                                           draw: Oracle, k: nat)
    requires |modifiers| > 0 && |nouns| > 0
    ensures forall i :: 0 <= i < |Kept(modifiers, nouns, used, draw, k)| ==>
              Kept(modifiers, nouns, used, draw, k)[i] !in used
  {
    if k > 0 {
      LemmaKeptUnused(modifiers, nouns, used, draw, k - 1);
    }
  }

  /** Each attempt adds at most one option. */
  lemma LemmaKeptStep(modifiers: seq<string>, nouns: seq<string>, used: set<string>, draw: Oracle, k: nat)
    requires |modifiers| > 0 && |nouns| > 0
    ensures |Kept(modifiers, nouns, used, draw, k + 1)| <= |Kept(modifiers, nouns, used, draw, k)| + 1
  {
  }

  /** Every option kept is a modifier of the pool, a space, and a noun of the pool. */
  lemma {:induction false} LemmaKeptTitles(modifiers: seq<string>, nouns: seq<string>, used: set<string>,
                                           draw: Oracle, k: nat)
    requires |modifiers| > 0 && |nouns| > 0
    ensures forall i :: 0 <= i < |Kept(modifiers, nouns, used, draw, k)| ==>
              IsTitleOf(Kept(modifiers, nouns, used, draw, k)[i], modifiers, nouns)
  {
    if k > 0 {
      LemmaKeptTitles(modifiers, nouns, used, draw, k - 1);
      LemmaCandidateTitle(modifiers, nouns, draw, k - 1);
      var prev := Kept(modifiers, nouns, used, draw, k - 1);
      var t := Candidate(modifiers, nouns, draw, k - 1);
      var opts := Kept(modifiers, nouns, used, draw, k);
      assert opts == (if t !in used then prev + [t] else prev);
      forall i | 0 <= i < |opts| ensures IsTitleOf(opts[i], modifiers, nouns) {
        if i < |prev| {
          assert opts[i] == prev[i];
        } else {
          assert opts[i] == t;
        }
      }
    }
  }

  /** More draws never keep fewer options. */
  lemma {:induction false} LemmaKeptMonotone(modifiers: seq<string>, nouns: seq<string>, used: set<string>,
                                             draw: Oracle, k: nat, n: nat)
    requires |modifiers| > 0 && |nouns| > 0
    requires k <= n
    ensures |Kept(modifiers, nouns, used, draw, k)| <= |Kept(modifiers, nouns, used, draw, n)|
    decreases n - k
  {
    if k < n {
      LemmaKeptMonotone(modifiers, nouns, used, draw, k, n - 1);
    }
  }

  /** The loop never overshoots: it stops with at most five options. */
  lemma LemmaStopPointCount(modifiers: seq<string>, nouns: seq<string>, used: set<string>, draw: Oracle)
    requires |modifiers| > 0 && |nouns| > 0
    ensures |Kept(modifiers, nouns, used, draw, StopPoint(modifiers, nouns, used, draw, 0))| <= OptionCount
  {
    var n := StopPoint(modifiers, nouns, used, draw, 0);
    if n > 0 {
      LemmaKeptStep(modifiers, nouns, used, draw, n - 1);
    }
  }

  /** Where the loop stops: at most five options, all unused; fewer than five only after
      all 100 draws, and five exactly when all 100 draws would have kept five. */
  lemma LemmaStopOutcome(modifiers: seq<string>, nouns: seq<string>, used: set<string>, draw: Oracle)
    requires |modifiers| > 0 && |nouns| > 0
    ensures var n := StopPoint(modifiers, nouns, used, draw, 0);
            var opts := Kept(modifiers, nouns, used, draw, n);
            && |opts| <= OptionCount
            && (|opts| < OptionCount ==> n == MaxAttempts)
            && (|opts| >= OptionCount <==> |Kept(modifiers, nouns, used, draw, MaxAttempts)| >= OptionCount)
            && forall i :: 0 <= i < |opts| ==> opts[i] !in used
  {
    var n := StopPoint(modifiers, nouns, used, draw, 0);
    LemmaStopPointCount(modifiers, nouns, used, draw);
    LemmaKeptUnused(modifiers, nouns, used, draw, n);
    LemmaKeptMonotone(modifiers, nouns, used, draw, n, MaxAttempts);
  }

  /** The outcome of generation, as a reference definition: the options kept up to the
      point where the loop stops, or the reason there are none to offer. */
  function Generate(modifiers: seq<string>, nouns: seq<string>, used: set<string>, draw: Oracle)
    : (r: Result<seq<string>, GenError>)
    ensures r == Failure(EmptyPool) <==> |modifiers| == 0 || |nouns| == 0
    ensures r.Success? ==> |r.value| == OptionCount
    ensures r.Success? ==> forall i :: 0 <= i < |r.value| ==> r.value[i] !in used
    ensures r == Failure(Exhausted) ==>
              |Kept(modifiers, nouns, used, draw, MaxAttempts)| < OptionCount
  {
    if |modifiers| == 0 || |nouns| == 0 then Failure(EmptyPool)
    else
      LemmaStopOutcome(modifiers, nouns, used, draw);
      var opts := Kept(modifiers, nouns, used, draw, StopPoint(modifiers, nouns, used, draw, 0));
      if |opts| < OptionCount then Failure(Exhausted) else Success(opts)
  }

  /** Generation succeeds exactly when 100 draws would keep five unused titles, and then
      offers the options kept where the loop stops. */
  lemma LemmaGenerateOffers(modifiers: seq<string>, nouns: seq<string>, used: set<string>, draw: Oracle)
    ensures var r := Generate(modifiers, nouns, used, draw);
            && (|modifiers| > 0 && |nouns| > 0 ==>
                  (r.Success? <==> |Kept(modifiers, nouns, used, draw, MaxAttempts)| >= OptionCount))
            && (r.Success? ==>
                  |modifiers| > 0 && |nouns| > 0 &&
                  r.value == Kept(modifiers, nouns, used, draw, StopPoint(modifiers, nouns, used, draw, 0)))
  {
    if |modifiers| > 0 && |nouns| > 0 {
      var n := StopPoint(modifiers, nouns, used, draw, 0);
      LemmaStopOutcome(modifiers, nouns, used, draw);
      LemmaGenerateAt(modifiers, nouns, used, draw, n);
    }
  }

  /** `Generate` with pools that are not empty, given where the loop stops. */
  lemma LemmaGenerateAt(modifiers: seq<string>, nouns: seq<string>, used: set<string>, draw: Oracle, n: nat)
    requires |modifiers| > 0 && |nouns| > 0
    requires n <= MaxAttempts && n == StopPoint(modifiers, nouns, used, draw, 0)
    ensures |Kept(modifiers, nouns, used, draw, n)| < OptionCount ==>
              Generate(modifiers, nouns, used, draw) == Failure(Exhausted)
    ensures |Kept(modifiers, nouns, used, draw, n)| >= OptionCount ==>
              Generate(modifiers, nouns, used, draw) == Success(Kept(modifiers, nouns, used, draw, n))
  {
  }

  /** Every option offered is a title the two pools can form. */
  lemma LemmaGenerateTitles(modifiers: seq<string>, nouns: seq<string>, used: set<string>, draw: Oracle)
    ensures var r := Generate(modifiers, nouns, used, draw);
            r.Success? ==> forall i :: 0 <= i < |r.value| ==> IsTitleOf(r.value[i], modifiers, nouns)
  {
    if |modifiers| > 0 && |nouns| > 0 {
      LemmaKeptTitles(modifiers, nouns, used, draw, StopPoint(modifiers, nouns, used, draw, 0));
    }
  }

  /** The generation loop of botnick.py:47-57, driven by the oracle. It stops after at
      most 100 attempts, each attempt adding at most one option, and agrees with the
      reference definition `Generate`. */
  method GenerateOptions(modifiers: seq<string>, nouns: seq<string>, used: set<string>, draw: Oracle)
    returns (r: Result<seq<string>, GenError>, attempts: nat)
    ensures attempts <= MaxAttempts
    ensures r == Generate(modifiers, nouns, used, draw)
    ensures r == Failure(Exhausted) ==> attempts == MaxAttempts
    ensures r.Success? ==> OptionCount <= attempts
  {
    if |modifiers| == 0 || |nouns| == 0 {
      return Failure(EmptyPool), 0;
    }
    var options: seq<string> := [];
    attempts := 0;
    while |options| < OptionCount && attempts < MaxAttempts
      invariant attempts <= MaxAttempts
      invariant options == Kept(modifiers, nouns, used, draw, attempts)
      invariant forall m :: 0 <= m < attempts ==> |Kept(modifiers, nouns, used, draw, m)| < OptionCount
      decreases MaxAttempts - attempts
    {
      var title := Title(modifiers[draw(attempts).0 % |modifiers|], nouns[draw(attempts).1 % |nouns|]);
      assert title == Candidate(modifiers, nouns, draw, attempts);
      if title !in used {
        options := options + [title];
      }
      attempts := attempts + 1;
    }
    LemmaLoopExit(modifiers, nouns, used, draw, attempts);
    if |options| < OptionCount {
      r := Failure(Exhausted);
    } else {
      r := Success(options);
    }
  }

  /** Where the loop of botnick.py:49 exits, `Generate` reads off its outcome. */
  lemma LemmaLoopExit(modifiers: seq<string>, nouns: seq<string>, used: set<string>, draw: Oracle, n: nat)
    requires |modifiers| > 0 && |nouns| > 0
    requires n <= MaxAttempts
    requires n == MaxAttempts || |Kept(modifiers, nouns, used, draw, n)| >= OptionCount
    requires forall m :: 0 <= m < n ==> |Kept(modifiers, nouns, used, draw, m)| < OptionCount
    ensures |Kept(modifiers, nouns, used, draw, n)| < OptionCount ==>
              Generate(modifiers, nouns, used, draw) == Failure(Exhausted) && n == MaxAttempts
    ensures |Kept(modifiers, nouns, used, draw, n)| >= OptionCount ==>
              Generate(modifiers, nouns, used, draw) == Success(Kept(modifiers, nouns, used, draw, n)) &&
              OptionCount <= n
  {
    LemmaStopPointIs(modifiers, nouns, used, draw, 0, n);
    LemmaGenerateAt(modifiers, nouns, used, draw, n);
  }

  /** The loop stops at the first attempt count that meets its exit condition. */
  lemma {:induction false} LemmaStopPointIs(modifiers: seq<string>, nouns: seq<string>, used: set<string>,
                                            draw: Oracle, k: nat, n: nat)
    requires |modifiers| > 0 && |nouns| > 0
    requires k <= n <= MaxAttempts
    requires n == MaxAttempts || |Kept(modifiers, nouns, used, draw, n)| >= OptionCount
    requires forall m :: k <= m < n ==> |Kept(modifiers, nouns, used, draw, m)| < OptionCount
    ensures StopPoint(modifiers, nouns, used, draw, k) == n
    decreases n - k
  {
    if k < n {
      LemmaStopPointIs(modifiers, nouns, used, draw, k + 1, n);
    }
  }

  /** A pool whose every title is used keeps nothing, however many draws are made. */
  lemma {:induction false} LemmaSaturatedKeepsNothing(modifiers: seq<string>, nouns: seq<string>, used: set<string>,
                                                      draw: Oracle, k: nat)
    requires |modifiers| > 0 && |nouns| > 0
    requires forall i, j :: 0 <= i < |modifiers| && 0 <= j < |nouns| ==> Title(modifiers[i], nouns[j]) in used
    ensures Kept(modifiers, nouns, used, draw, k) == []
  {
    if k > 0 {
      LemmaSaturatedKeepsNothing(modifiers, nouns, used, draw, k - 1);
      var i := draw(k - 1).0 % |modifiers|;
      var j := draw(k - 1).1 % |nouns|;
      assert Candidate(modifiers, nouns, draw, k - 1) == Title(modifiers[i], nouns[j]);
    }
  }

  /** When every title the pools can form is already used, generation reports
      `Exhausted`, whatever the draws. */
  lemma LemmaSaturatedPoolExhausts(modifiers: seq<string>, nouns: seq<string>, used: set<string>, draw: Oracle)
    requires |modifiers| > 0 && |nouns| > 0
    requires forall i, j :: 0 <= i < |modifiers| && 0 <= j < |nouns| ==> Title(modifiers[i], nouns[j]) in used
    ensures Generate(modifiers, nouns, used, draw) == Failure(Exhausted)
  {
    LemmaSaturatedKeepsNothing(modifiers, nouns, used, draw, StopPoint(modifiers, nouns, used, draw, 0));
  }

  /** With a one-word modifier pool and a one-word noun pool, every draw gives the same
      title, and while it is unused each draw keeps it once more. */
  lemma {:induction false} LemmaSingletonKept(modifier: string, noun: string, used: set<string>,
                                              draw: Oracle, k: nat)
    requires Title(modifier, noun) !in used
    ensures Kept([modifier], [noun], used, draw, k) == seq(k, i => Title(modifier, noun))
  {
    if k > 0 {
      LemmaSingletonKept(modifier, noun, used, draw, k - 1);
      assert Candidate([modifier], [noun], draw, k - 1) == Title(modifier, noun);
    }
  }

  /** The options need not be distinct: with one unused modifier-noun pair, generation
      offers that title five times, whatever the draws. */
  lemma LemmaDuplicateOptions(modifier: string, noun: string, used: set<string>, draw: Oracle)
    requires Title(modifier, noun) !in used
    ensures var t := Title(modifier, noun);
            Generate([modifier], [noun], used, draw) == Success([t, t, t, t, t])
  {
    var t := Title(modifier, noun);
    forall j | 0 <= j <= OptionCount
      ensures Kept([modifier], [noun], used, draw, j) == seq(j, i => t)
    {
      LemmaSingletonKept(modifier, noun, used, draw, j);
    }
    LemmaStopPointIs([modifier], [noun], used, draw, 0, OptionCount);
    LemmaGenerateAt([modifier], [noun], used, draw, OptionCount);
    assert seq(OptionCount, i => t) == [t, t, t, t, t];
  }

  /** Titles built from clean words have no surrounding whitespace and no line feed,
      so the registry can store them and reload them unchanged. */
  lemma LemmaCleanTitle(modifier: string, noun: string)
    requires CleanWord(modifier) && CleanWord(noun)
    ensures IsStripped(Title(modifier, noun))
    ensures '\n' !in Title(modifier, noun)
  {
    var t := Title(modifier, noun);
    assert t[0] == modifier[0];
    assert t[|t| - 1] == noun[|noun| - 1];
  }
}

=== FILE: labels.dfy ===
/**
 * The nicknames the dialogue ends with: the chosen title joined to the chosen name
 * (botnick.py:87), or the fallback after a timeout (botnick.py:116).
 */
module Labels {

  /** The only position that puts the title first; any other answer puts it last. */
  const Before: string := "before"
  /** The other position `check_order` accepts (botnick.py:83). */
  const After: string := "after"

  const FallbackPrefix: string := "Unrenowned "

  /** `final_title` (botnick.py:87): `"<title> <name>"` when the position is `before`,
      otherwise `"<name>, <title>"`. */
  function FinalLabel(title: string, name: string, position: string): (nick: string)
    ensures position == Before ==>
              |nick| == |title| + 1 + |name| && nick[..|title|] == title && nick[|title|] == ' '
    ensures position != Before ==>
              |nick| == |name| + 2 + |title| && nick[|name|..|name| + 2] == ", " &&
              nick[|nick| - |title|..] == title
  {
    if position == Before then title + " " + name else name + ", " + title
  }

  /** Reads the name back out of a nickname, knowing the title and the position. */
  function NameInLabel(nick: string, title: string, position: string): string
    requires |nick| >= |title| + (if position == Before then 1 else 2)
  {
    if position == Before then nick[|title| + 1..] else nick[..|nick| - |title| - 2]
  }

  /** The name can always be read back out of the nickname it was placed in, so two
      different names never give the same nickname for the same title and position. */
  lemma LemmaFinalLabelRoundTrip(title: string, name: string, position: string)
    ensures NameInLabel(FinalLabel(title, name, position), title, position) == name
  {
    var nick := FinalLabel(title, name, position);
    if position == Before {
      assert nick == title + " " + name;
      assert nick[|title| + 1..] == name;
    } else {
      assert nick == name + ", " + title;
      assert nick[..|nick| - |title| - 2] == name;
    }
  }

  /** Distinct names yield distinct labels. */
  lemma LemmaFinalLabelInjective(title: string, name1: string, name2: string, position: string)
    requires FinalLabel(title, name1, position) == FinalLabel(title, name2, position)
    ensures name1 == name2
  {
    LemmaFinalLabelRoundTrip(title, name1, position);
    LemmaFinalLabelRoundTrip(title, name2, position);
  }

  /** `fallback_nick` (botnick.py:116): the member's account name after `Unrenowned `. */
  function FallbackLabel(memberName: string): (nick: string)
    ensures |nick| == |FallbackPrefix| + |memberName|
    ensures nick[..|FallbackPrefix|] == FallbackPrefix
  {
    FallbackPrefix + memberName
  }

  /** The member's name is what follows the prefix of a fallback nickname. */
  lemma LemmaFallbackRoundTrip(memberName: string)
    ensures FallbackLabel(memberName)[|FallbackPrefix|..] == memberName
  {
  }
}

=== FILE: lines.dfy ===
/**
 * The two ways the program cuts a text file into lines.
 * `ReadLines` is Python's `f.readlines()`: every line keeps its terminating `\n`.
 * `SplitLines` is Python's `str.splitlines()`: terminators are dropped, and several
 * characters count as one (ASCII only).
 */
module Lines {

  /** Concatenation of a sequence of strings. */
  function Concat(ls: seq<string>): string {
    if ls == [] then [] else ls[0] + Concat(ls[1..])
  }

  /** A line as `readlines` returns it: non-empty, with `\n` at most as its last character. */
  predicate IsLine(l: string) {
    l != [] && forall i :: 0 <= i < |l| - 1 ==> l[i] != '\n'
  }

  predicate EndsWithNewline(l: string) {
    l != [] && l[|l| - 1] == '\n'
  }

  /** A text that `save_used_title` alone could have written: empty or ending in `\n`. */
  predicate WellFormed(s: string) {
    s == [] || EndsWithNewline(s)
  }

  /** The length of the first line of `s`, its terminating `\n` included. */
  function LineLength(s: string): (k: nat)
    requires s != []
    ensures 0 < k <= |s|
    ensures forall i :: 0 <= i < k - 1 ==> s[i] != '\n'
    ensures k < |s| ==> s[k - 1] == '\n'
  {
    if s[0] == '\n' || |s| == 1 then 1 else 1 + LineLength(s[1..])
  }

  /** `f.readlines()` on a file whose content is `s`. */
  function ReadLines(s: string): (r: seq<string>)
    ensures s == [] <==> r == []
    decreases |s|
  {
    if s == [] then []
    else
      var k := LineLength(s);
      [s[..k]] + ReadLines(s[k..])
  }

  lemma LemmaConcatCons(x: string, rest: seq<string>)
    ensures Concat([x] + rest) == x + Concat(rest)
  {
    assert ([x] + rest)[0] == x;
    assert ([x] + rest)[1..] == rest;
  }

  /** `readlines` loses nothing and invents nothing: its lines concatenate back to the text. */
  lemma {:induction false} LemmaReadLinesConcat(s: string)
    ensures Concat(ReadLines(s)) == s
    decreases |s|
  {
    if s != [] {
      var k := LineLength(s);
      LemmaReadLinesConcat(s[k..]);
      LemmaConcatCons(s[..k], ReadLines(s[k..]));
      assert s[..k] + s[k..] == s;
    }
  }

  /** Each line `readlines` returns is non-empty and holds `\n` at most at its end, and
      every line but the last ends with `\n`. */
  lemma {:induction false} LemmaReadLinesShape(s: string)
    ensures forall j :: 0 <= j < |ReadLines(s)| ==> IsLine(ReadLines(s)[j])
    ensures forall j :: 0 <= j < |ReadLines(s)| - 1 ==> EndsWithNewline(ReadLines(s)[j])
    decreases |s|
  {
    if s != [] {
      var k := LineLength(s);
      var line := s[..k];
      var rest := ReadLines(s[k..]);
      LemmaReadLinesShape(s[k..]);
      var r := ReadLines(s);
      assert r == [line] + rest;
      assert IsLine(line);
      assert rest != [] ==> EndsWithNewline(line);
      forall j | 0 < j < |r| ensures r[j] == rest[j - 1] {
      }
    }
  }

  /** Appending more text after a complete line does not change where that line ends. */
  lemma LemmaLineLengthExtend(s: string, w: string)
    requires s != [] && EndsWithNewline(s)
    ensures LineLength(s + w) == LineLength(s)
  {
    var k := LineLength(s);
    var k' := LineLength(s + w);
    assert (s + w)[k - 1] == s[k - 1] == '\n';
  }

  lemma LemmaAppendAssoc<T>(a: seq<T>, b: seq<T>, c: seq<T>)
    ensures a + (b + c) == (a + b) + c
  {
  }

  /** Appending one complete line `u` to a well-formed text adds exactly that line to
      what `readlines` returns and leaves the earlier lines as they were. */
  lemma {:induction false} LemmaReadLinesAppendLine(s: string, u: string)
    requires WellFormed(s)
    requires IsLine(u) && EndsWithNewline(u)
    ensures ReadLines(s + u) == ReadLines(s) + [u]
    decreases |s|
  {
    if s == [] {
      assert s + u == u;
      var k := LineLength(u);
      assert k == |u|;
      assert u[..k] == u && u[k..] == [];
    } else {
      var k := LineLength(s);
      var w := s[k..];
      var x := s + u;
      LemmaLineLengthExtend(s, u);
      LemmaSplitAfterLine(s, u, k);
      LemmaReadLinesAppendLine(w, u);
      LemmaReadLinesUnfold(x);
      LemmaReadLinesUnfold(s);
      LemmaAppendAssoc([s[..k]], ReadLines(w), [u]);
    }
  }

  /** One step of `readlines`: the first line, then the lines of the rest. */
  lemma LemmaReadLinesUnfold(s: string)
    requires s != []
    ensures ReadLines(s) == [s[..LineLength(s)]] + ReadLines(s[LineLength(s)..])
  {
  }

  /** Cutting `s + u` after the first line of a well-formed `s` leaves that line and a
      well-formed remainder followed by `u`. */
  lemma LemmaSplitAfterLine(s: string, u: string, k: nat)
    requires WellFormed(s) && s != [] && k == LineLength(s)
    ensures (s + u)[..k] == s[..k] && (s + u)[k..] == s[k..] + u
    ensures WellFormed(s[k..])
  {
    var w := s[k..];
    if w != [] {
      assert w[|w| - 1] == s[|s| - 1];
    }
  }

  /** Appending one newline-free line plus `\n` to a well-formed text adds exactly one
      line to what `readlines` returns, and leaves the earlier lines as they were. */
  lemma LemmaReadLinesAppend(s: string, t: string)
    requires WellFormed(s)
    requires '\n' !in t
    ensures ReadLines(s + t + "\n") == ReadLines(s) + [t + "\n"]
  {
    var u := t + "\n";
    assert s + t + "\n" == s + u;
    assert IsLine(u) by {
      forall i | 0 <= i < |u| - 1 ensures u[i] != '\n' {
        assert u[i] == t[i];
      }
    }
    LemmaReadLinesAppendLine(s, u);
  }

  /** The ASCII line boundaries of `str.splitlines()`: `\n`, `\r`, vertical tab, form
      feed and the separators 0x1C..0x1E (`\r\n` counts as one boundary). */
  predicate IsLineBreak(c: char) {
    c == '\n' || c == '\r' || c == '\U{0B}' || c == '\U{0C}' || '\U{1C}' <= c <= '\U{1E}'
  }

  predicate NoLineBreak(s: string) {
    forall i :: 0 <= i < |s| ==> !IsLineBreak(s[i])
  }

  /** Position of the first line boundary in `s`, or `|s|` when there is none. */
  function BreakIndex(s: string): (k: nat)
    ensures k <= |s|
    ensures k < |s| ==> IsLineBreak(s[k])
    ensures NoLineBreak(s[..k])
  {
    if s == [] || IsLineBreak(s[0]) then 0 else 1 + BreakIndex(s[1..])
  }

  /** `str.splitlines()`: the lines of `s` without their boundaries; a final boundary
      does not open an empty last line. */
  function SplitLines(s: string): (r: seq<string>)
    ensures forall j :: 0 <= j < |r| ==> NoLineBreak(r[j])
    ensures |r| <= |s|
    decreases |s|
  {
    if s == [] then []
    else
      var k := BreakIndex(s);
      if k == |s| then [s]
      else
        var next := if s[k] == '\r' && k + 1 < |s| && s[k + 1] == '\n' then k + 2 else k + 1;
        [s[..k]] + SplitLines(s[next..])
  }

  /** The text of a file that holds the given lines, one per line, each ended by `\n`. */
  function JoinLines(ws: seq<string>): string {
    if ws == [] then [] else ws[0] + "\n" + JoinLines(ws[1..])
  }

  /** A line without boundaries, then `\n`, splits off as the first line. */
  lemma LemmaSplitLinesCons(h: string, rest: string)
    requires NoLineBreak(h)
    ensures SplitLines(h + "\n" + rest) == [h] + SplitLines(rest)
  {
    var s := h + "\n" + rest;
    assert s[|h|] == '\n';
    assert s[..|h|] == h;
    assert s[|h| + 1..] == rest;
    assert BreakIndex(s) == |h| by {
      assert s[..|h| + 1] == h + "\n";
      LemmaBreakIndexAt(s, |h|);
    }
  }

  /** The first boundary sits at `k` when `s[..k]` has none and `s[k]` is one. */
  lemma {:induction false} LemmaBreakIndexAt(s: string, k: nat)
    requires k < |s| && NoLineBreak(s[..k]) && IsLineBreak(s[k])
    ensures BreakIndex(s) == k
    decreases k
  {
    if k > 0 {
      assert s[0] == s[..k][0];
      assert s[1..][..k - 1] == s[..k][1..];
      LemmaBreakIndexAt(s[1..], k - 1);
    }
  }

  /** A non-empty text with no boundary at all is a single line. */
  lemma {:induction false} LemmaSplitLinesSingle(w: string)
    requires w != [] && NoLineBreak(w)
    ensures SplitLines(w) == [w]
  {
    LemmaBreakIndexNone(w);
  }

  /** Without any boundary, `BreakIndex` runs to the end of the text. */
  lemma {:induction false} LemmaBreakIndexNone(s: string)
    requires NoLineBreak(s)
    ensures BreakIndex(s) == |s|
    decreases |s|
  {
    if s != [] {
      LemmaBreakIndexNone(s[1..]);
    }
  }

  /** A file written line by line splits back into exactly the lines written. */
  lemma {:induction false} LemmaSplitJoin(ws: seq<string>)
    requires forall j :: 0 <= j < |ws| ==> NoLineBreak(ws[j])
    ensures SplitLines(JoinLines(ws)) == ws
  {
    if ws != [] {
      LemmaSplitLinesCons(ws[0], JoinLines(ws[1..]));
      LemmaSplitJoin(ws[1..]);
      assert ws == [ws[0]] + ws[1..];
    }
  }

  /** A file whose last line has no final `\n` keeps that line: `splitlines` returns the
      terminated lines followed by the unterminated one. */
  lemma {:induction false} LemmaSplitJoinLast(ws: seq<string>, w: string)
    requires forall j :: 0 <= j < |ws| ==> NoLineBreak(ws[j])
    requires w != [] && NoLineBreak(w)
    ensures SplitLines(JoinLines(ws) + w) == ws + [w]
  {
    if ws == [] {
      assert JoinLines(ws) + w == w;
      LemmaSplitLinesSingle(w);
    } else {
      var tail := JoinLines(ws[1..]) + w;
      calc {
        SplitLines(JoinLines(ws) + w);
        { LemmaJoinLinesThen(ws, w); }
        SplitLines(ws[0] + "\n" + tail);
        { LemmaSplitLinesCons(ws[0], tail); }
        [ws[0]] + SplitLines(tail);
        { LemmaSplitJoinLast(ws[1..], w); }
        [ws[0]] + (ws[1..] + [w]);
        { assert ws == [ws[0]] + ws[1..]; }
        ws + [w];
      }
    }
  }

  /** Text after a joined file follows its last `\n`. */
  lemma LemmaJoinLinesThen(ws: seq<string>, w: string)
    requires ws != []
    ensures JoinLines(ws) + w == ws[0] + "\n" + (JoinLines(ws[1..]) + w)
  {
  }
}

=== FILE: onboarding.dfy ===
/**
 * One run of `run_title_sequence` (botnick.py:44-128) as a state machine driven by
 * events: a reply the bot sees, or the expiry of the 60-second wait of the current
 * step. Generation happens once at the start; then three answers are awaited in turn.
 * The title is retired as soon as the choice is accepted (botnick.py:69-71), before
 * the name and position are asked for.
 */
module Onboarding {
  import opened Wrappers
  import opened Text
  import opened Lines
  import opened WordPool
  import opened Registry
  import opened Generator
  import opened Replies
  import opened Labels

  datatype Phase =
    | AwaitingChoice(options: seq<string>)
    | AwaitingName(title: string)
    | AwaitingPosition(title: string, name: string)
    | Completed(title: string, name: string, position: string, nick: string)
    | TimedOut(nick: string)
    | Failed(error: GenError)

  datatype Session = Session(member: Member, phase: Phase, registry: Registry)

  /** What the session can be woken by: a message, or the end of the current wait
      (`asyncio.TimeoutError`). */
  datatype Event = Reply(msg: Message) | Timeout

  predicate Terminal(p: Phase) {
    p.Completed? || p.TimedOut? || p.Failed?
  }

  /** While a choice is awaited, exactly five options are on offer. */
  predicate ValidPhase(p: Phase) {
    p.AwaitingChoice? ==> |p.options| == OptionCount
  }

  /** Whether the filter of the current wait lets `m` through. */
  predicate Accepts(p: Phase, m: Message, member: Member) {
    match p
    case AwaitingChoice(_) => CheckChoice(m, member)
    case AwaitingName(_) => CheckName(m, member)
    case AwaitingPosition(_, _) => CheckOrder(m, member)
    case _ => false
  }

  /** Generation, then either the failure or the offer of the options
      (botnick.py:46-65). Nothing is retired yet. */
  function Start(member: Member, registry: Registry, modifiers: seq<string>, nouns: seq<string>, draw: Oracle)
    : (s: Session)
    ensures s.member == member && s.registry == registry
    ensures ValidPhase(s.phase)
    ensures s.phase.Failed? || s.phase.AwaitingChoice?
    ensures s.phase == Failed(EmptyPool) <==> |modifiers| == 0 || |nouns| == 0
    ensures s.phase.AwaitingChoice? ==> forall i :: 0 <= i < |s.phase.options| ==>
              s.phase.options[i] !in registry.used && IsTitleOf(s.phase.options[i], modifiers, nouns)
    ensures |modifiers| > 0 && |nouns| > 0 ==>
              (s.phase.AwaitingChoice? <==> |Kept(modifiers, nouns, registry.used, draw, MaxAttempts)| >= OptionCount)
    ensures s.phase.AwaitingChoice? ==>
              |modifiers| > 0 && |nouns| > 0 &&
              s.phase.options == Kept(modifiers, nouns, registry.used, draw,
                                      StopPoint(modifiers, nouns, registry.used, draw, 0))
  {
    LemmaGenerateTitles(modifiers, nouns, registry.used, draw);
    LemmaGenerateOffers(modifiers, nouns, registry.used, draw);
    match Generate(modifiers, nouns, registry.used, draw)
    case Failure(e) => Session(member, Failed(e), registry)
    case Success(opts) => Session(member, AwaitingChoice(opts), registry)
  }

  /** One event. A timeout in any awaiting phase ends the session with the fallback
      nickname; a reply the current filter rejects changes nothing; an accepted reply
      advances one phase. */
  function Step(s: Session, e: Event): (s': Session)
    requires ValidPhase(s.phase)
    ensures ValidPhase(s'.phase)
    ensures s'.member == s.member
    ensures s.registry.used <= s'.registry.used
    ensures Terminal(s.phase) ==> s' == s
    ensures e.Timeout? && !Terminal(s.phase) ==>
              s'.phase == TimedOut(FallbackLabel(s.member.name)) && s'.registry == s.registry
    ensures e.Reply? && !Accepts(s.phase, e.msg, s.member) ==> s' == s
    ensures !s.phase.AwaitingChoice? ==> s'.registry == s.registry
  {
    if Terminal(s.phase) then s
    else
      match e
      case Timeout => s.(phase := TimedOut(FallbackLabel(s.member.name)))
      case Reply(m) =>
        if !Accepts(s.phase, m, s.member) then s
        else
          match s.phase
          case AwaitingChoice(options) =>
            var title := options[ChoiceIndex(m.content)];
            Session(s.member, AwaitingName(title), Reserve(s.registry, title))
          case AwaitingName(title) =>
            s.(phase := AwaitingPosition(title, AcceptedName(m)))
          case AwaitingPosition(title, name) =>
            var position := AcceptedPosition(m);
            s.(phase := Completed(title, name, position, FinalLabel(title, name, position)))
  }

  /** A sequence of events, applied in order. */
  function Run(s: Session, events: seq<Event>): (s': Session)
    requires ValidPhase(s.phase)
    ensures ValidPhase(s'.phase)
    ensures s'.member == s.member
    decreases |events|
  {
    if events == [] then s
    else
      var next := Step(s, events[0]);
      Run(next, events[1..])
  }

  /** A single event is a single step. */
  lemma LemmaRunSingle(s: Session, e: Event)
    requires ValidPhase(s.phase)
    ensures Run(s, [e]) == Step(s, e)
  {
    assert [e][1..] == [];
  }

  /** What each phase guarantees about the answers collected so far. */
  predicate Inv(s: Session) {
    match s.phase
    case AwaitingChoice(options) =>
      |options| == OptionCount && forall i :: 0 <= i < |options| ==> options[i] !in s.registry.used
    case AwaitingName(title) => title in s.registry.used
    case AwaitingPosition(title, name) =>
      title in s.registry.used && IsStripped(name) && |name| <= MaxNameLength
    case Completed(title, name, position, nick) =>
      && title in s.registry.used && IsStripped(name) && |name| <= MaxNameLength
      && (position == Before || position == After)
      && nick == FinalLabel(title, name, position)
    case TimedOut(nick) => nick == FallbackLabel(s.member.name)
    case Failed(_) => true
  }

  /** A freshly started session satisfies the invariant. */
  lemma LemmaStartInv(member: Member, registry: Registry, modifiers: seq<string>, nouns: seq<string>, draw: Oracle)
    ensures Inv(Start(member, registry, modifiers, nouns, draw))
  {
  }

  /** Every step keeps the invariant: the retired title stays retired, an accepted name
      is stripped and short enough, an accepted position is `before` or `after`. */
  lemma LemmaStepKeepsInv(s: Session, e: Event)
    requires ValidPhase(s.phase) && Inv(s)
    ensures Inv(Step(s, e))
  {
    if e.Reply? && Accepts(s.phase, e.msg, s.member) && !Terminal(s.phase) {
      var m := e.msg;
      match s.phase
      case AwaitingChoice(options) =>
      case AwaitingName(title) =>
        LemmaNameAccepted(m, s.member);
      case AwaitingPosition(title, name) =>
        LemmaOrderAccepted(m, s.member);
    }
  }

  /** The invariant holds after any sequence of events. */
  lemma {:induction false} LemmaRunKeepsInv(s: Session, events: seq<Event>)
    requires ValidPhase(s.phase) && Inv(s)
    ensures Inv(Run(s, events))
    decreases |events|
  {
    if events != [] {
      LemmaStepKeepsInv(s, events[0]);
      LemmaRunKeepsInv(Step(s, events[0]), events[1..]);
    }
  }

  /** An accepted choice selects the option its number names, retires that title (which
      was not retired before), and appends exactly one line holding it to the file. */
  lemma LemmaChoiceReserves(s: Session, m: Message)
    requires ValidPhase(s.phase) && Inv(s)
    requires s.phase.AwaitingChoice? && CheckChoice(m, s.member)
    ensures var t := s.phase.options[ChoiceIndex(m.content)];
            var s' := Step(s, Reply(m));
            && s'.phase == AwaitingName(t)
            && t !in s.registry.used
            && s'.registry.used == s.registry.used + {t}
            && |s'.registry.used| == |s.registry.used| + 1
            && (StoreWellFormed(s.registry.store) && '\n' !in t ==>
                  ReadLines(StoreText(s'.registry.store)) == ReadLines(StoreText(s.registry.store)) + [t + "\n"])
  {
  }

  /** An accepted name is recorded as the stripped reply, next to the chosen title, and
      nothing is retired (botnick.py:78-79). */
  lemma LemmaNameRecorded(s: Session, m: Message)
    requires s.phase.AwaitingName? && CheckName(m, s.member)
    ensures var s' := Step(s, Reply(m));
            && s'.phase == AwaitingPosition(s.phase.title, Strip(m.content))
            && s'.registry == s.registry
  {
  }

  /** An accepted position completes the dialogue with the nickname that answer asks
      for: `<title> <name>` for any spelling of `before`, `<name>, <title>` for any
      spelling of `after` (botnick.py:84-87); nothing is retired. */
  lemma LemmaPositionRecorded(s: Session, m: Message)
    requires s.phase.AwaitingPosition? && m.author == s.member.id
    ensures var s' := Step(s, Reply(m));
            var t := s.phase.title;
            var n := s.phase.name;
            && (SpellsIgnoringCase(m.content, Before) ==>
                  s'.phase == Completed(t, n, Before, t + " " + n) && s'.registry == s.registry)
            && (SpellsIgnoringCase(m.content, After) ==>
                  s'.phase == Completed(t, n, After, n + ", " + t) && s'.registry == s.registry)
  {
    LemmaLowerMatches(m.content, Before);
    LemmaLowerMatches(m.content, After);
  }

  /** How far a session that offered `options` from registry `r0` has got with retiring
      one of them: none while the choice is awaited, exactly one once it is accepted, and
      either after a timeout. */
  predicate ReservedSoFar(r0: Registry, options: seq<string>, s: Session) {
    match s.phase
    case AwaitingChoice(o) => o == options && s.registry == r0
    case AwaitingName(t) => t in options && s.registry == Reserve(r0, t)
    case AwaitingPosition(t, _) => t in options && s.registry == Reserve(r0, t)
    case Completed(t, _, _, _) => t in options && s.registry == Reserve(r0, t)
    case TimedOut(_) =>
      s.registry == r0 || exists i :: 0 <= i < |options| && s.registry == Reserve(r0, options[i])
    case Failed(_) => s.registry == r0
  }

  lemma LemmaStepReservedSoFar(r0: Registry, options: seq<string>, s: Session, e: Event)
    requires ValidPhase(s.phase) && ReservedSoFar(r0, options, s)
    ensures ReservedSoFar(r0, options, Step(s, e))
  {
    var s' := Step(s, e);
    if s'.phase.TimedOut? && s.phase.AwaitingName? {
      var t := s.phase.title;
      var i :| 0 <= i < |options| && options[i] == t;
    } else if s'.phase.TimedOut? && s.phase.AwaitingPosition? {
      var t := s.phase.title;
      var i :| 0 <= i < |options| && options[i] == t;
    }
  }

  lemma {:induction false} LemmaRunReservedSoFar(r0: Registry, options: seq<string>, s: Session, events: seq<Event>)
    requires ValidPhase(s.phase) && ReservedSoFar(r0, options, s)
    ensures ReservedSoFar(r0, options, Run(s, events))
    decreases |events|
  {
    if events != [] {
      LemmaStepReservedSoFar(r0, options, s, events[0]);
      LemmaRunReservedSoFar(r0, options, Step(s, events[0]), events[1..]);
    }
  }

  /** Whatever replies and timeouts follow, one session retires at most one title: the
      registry ends either as it began or with one title added, a title the pools can
      form and that was not retired before. A session whose generation failed changes
      nothing at all. */
  lemma LemmaSessionReservesAtMostOnce(member: Member, registry: Registry, modifiers: seq<string>,
                                       nouns: seq<string>, draw: Oracle, events: seq<Event>)
    ensures var s := Run(Start(member, registry, modifiers, nouns, draw), events);
            || s.registry == registry
            || exists t :: t !in registry.used && IsTitleOf(t, modifiers, nouns) && s.registry == Reserve(registry, t)
    ensures Start(member, registry, modifiers, nouns, draw).phase.Failed? ==>
              Run(Start(member, registry, modifiers, nouns, draw), events) == Start(member, registry, modifiers, nouns, draw)
  {
    var s0 := Start(member, registry, modifiers, nouns, draw);
    if s0.phase.Failed? {
      LemmaRunTerminal(s0, events);
    } else {
      var options := s0.phase.options;
      LemmaRunReservedSoFar(registry, options, s0, events);
      var s := Run(s0, events);
      if s.registry != registry {
        var i :| 0 <= i < |options| && s.registry == Reserve(registry, options[i]);
        assert options[i] !in registry.used && IsTitleOf(options[i], modifiers, nouns);
      }
    }
  }

  /** Once a session has ended, further events change nothing. */
  lemma {:induction false} LemmaRunTerminal(s: Session, events: seq<Event>)
    requires ValidPhase(s.phase) && Terminal(s.phase)
    ensures Run(s, events) == s
    decreases |events|
  {
    if events != [] {
      LemmaRunTerminal(Step(s, events[0]), events[1..]);
    }
  }

  /** With clean word pools, a registry that matches its file still matches it after any
      session: reloading the file after a restart gives back the in-memory set. */
  lemma LemmaSessionKeepsConsistent(member: Member, registry: Registry, modifiers: seq<string>,
                                    nouns: seq<string>, draw: Oracle, events: seq<Event>)
    requires Consistent(registry)
    requires CleanPool(modifiers) && CleanPool(nouns)
    ensures Consistent(Run(Start(member, registry, modifiers, nouns, draw), events).registry)
  {
    LemmaSessionReservesAtMostOnce(member, registry, modifiers, nouns, draw, events);
    var s := Run(Start(member, registry, modifiers, nouns, draw), events);
    if s.registry != registry {
      var t :| t !in registry.used && IsTitleOf(t, modifiers, nouns) && s.registry == Reserve(registry, t);
      var i, j :| 0 <= i < |modifiers| && 0 <= j < |nouns| && t == Title(modifiers[i], nouns[j]);
      LemmaCleanTitle(modifiers[i], nouns[j]);
      LemmaReserveKeepsConsistent(registry, t);
    }
  }

  /** A timeout while the choice is awaited ends with `Unrenowned <name>` and retires
      nothing: every option offered is still free. */
  lemma LemmaTimeoutAtChoice(s: Session)
    requires ValidPhase(s.phase) && Inv(s) && s.phase.AwaitingChoice?
    ensures var s' := Step(s, Timeout);
            && s'.phase == TimedOut(FallbackLabel(s.member.name))
            && s'.registry == s.registry
            && forall i :: 0 <= i < |s.phase.options| ==> s.phase.options[i] !in s'.registry.used
  {
  }

  /** A timeout after the choice was accepted, while the name or the position is
      awaited, also ends with `Unrenowned <name>`, but the chosen title stays retired. */
  lemma LemmaTimeoutAfterChoice(s: Session)
    requires ValidPhase(s.phase) && Inv(s)
    requires s.phase.AwaitingName? || s.phase.AwaitingPosition?
    ensures var s' := Step(s, Timeout);
            && s'.phase == TimedOut(FallbackLabel(s.member.name))
            && s'.registry == s.registry
            && s.phase.title in s'.registry.used
  {
  }

  /** The completion example: options offered, a wrong-format and an out-of-range reply
      ignored, then `2`, `Thorne`, `before` give the nickname `Frost Hawk Thorne` and
      retire `Frost Hawk` alone. */
  lemma LemmaCompletionScenario(member: Member, registry: Registry, channel: nat)
    ensures var options := ["Iron Wolf", "Frost Hawk", "Storm Bear", "Ash Fox", "Night Owl"];
            var s := Run(Session(member, AwaitingChoice(options), registry),
                         [Reply(Message(member.id, channel, "abc")), Reply(Message(member.id, channel, "7")),
                          Reply(Message(member.id, channel, "2")), Reply(Message(member.id, channel, "Thorne")),
                          Reply(Message(member.id, channel, "before"))]);
            && s.phase == Completed("Frost Hawk", "Thorne", "before", "Frost Hawk Thorne")
            && s.registry == Reserve(registry, "Frost Hawk")
  {
    var options := ["Iron Wolf", "Frost Hawk", "Storm Bear", "Ash Fox", "Night Owl"];
    var s0 := Session(member, AwaitingChoice(options), registry);
    var m1 := Message(member.id, channel, "abc");
    var m2 := Message(member.id, channel, "7");
    var m3 := Message(member.id, channel, "2");
    var m4 := Message(member.id, channel, "Thorne");
    var m5 := Message(member.id, channel, "before");
    LemmaScenarioIgnored(member, channel);
    LemmaScenarioChoice(member, channel);
    LemmaScenarioNameAndPosition(member, channel);
    var s3 := Step(s0, Reply(m3));
    assert options[1] == "Frost Hawk";
    assert s3 == Session(member, AwaitingName("Frost Hawk"), Reserve(registry, "Frost Hawk"));
    var s4 := Step(s3, Reply(m4));
    assert s4 == s3.(phase := AwaitingPosition("Frost Hawk", "Thorne"));
    var s5 := Step(s4, Reply(m5));
    assert FinalLabel("Frost Hawk", "Thorne", "before") == "Frost Hawk Thorne";
    assert s5 == s3.(phase := Completed("Frost Hawk", "Thorne", "before", "Frost Hawk Thorne"));
    var events := [Reply(m1), Reply(m2), Reply(m3), Reply(m4), Reply(m5)];
    assert events[1..] == [Reply(m2), Reply(m3), Reply(m4), Reply(m5)];
    assert events[2..] == [Reply(m3), Reply(m4), Reply(m5)];
    assert events[3..] == [Reply(m4), Reply(m5)];
    assert events[4..] == [Reply(m5)];
    assert Run(s0, events) == Run(s0, events[1..]) == Run(s0, events[2..]);
    assert Run(s0, events[2..]) == Run(s3, events[3..]) == Run(s4, events[4..]);
    LemmaRunSingle(s4, Reply(m5));
  }

  /** The two malformed replies of the completion example are ignored. */
  lemma LemmaScenarioIgnored(member: Member, channel: nat)
    ensures !CheckChoice(Message(member.id, channel, "abc"), member)
    ensures !CheckChoice(Message(member.id, channel, "7"), member)
  {
    assert !IsDigit("abc"[0]);
    assert DigitsValue("7") == 7;
  }

  /** The reply `2` selects the second option. */
  lemma LemmaScenarioChoice(member: Member, channel: nat)
    ensures CheckChoice(Message(member.id, channel, "2"), member) && ChoiceIndex("2") == 1
  {
    assert DigitsValue("2") == 2;
  }

  /** The replies `Thorne` and `before` are accepted as themselves. */
  lemma LemmaScenarioNameAndPosition(member: Member, channel: nat)
    ensures CheckName(Message(member.id, channel, "Thorne"), member)
    ensures AcceptedName(Message(member.id, channel, "Thorne")) == "Thorne"
    ensures CheckOrder(Message(member.id, channel, "before"), member)
    ensures AcceptedPosition(Message(member.id, channel, "before")) == "before"
  {
    LemmaStripStripped("Thorne");
    assert Lower("before") == "before";
  }

  /** With an empty noun pool the source's `random.choice` raises before anything is
      sent; the session ends at once and no event changes it. */
  lemma LemmaEmptyPoolFails(member: Member, registry: Registry, modifiers: seq<string>, draw: Oracle,
                            events: seq<Event>)
    ensures Run(Start(member, registry, modifiers, [], draw), events).phase == Failed(EmptyPool)
    ensures Run(Start(member, registry, modifiers, [], draw), events).registry == registry
  {
    LemmaRunTerminal(Start(member, registry, modifiers, [], draw), events);
  }
}

=== FILE: registry.dfy ===
/**
 * The title registry (botnick.py:7-17, 37, 70-71): the set `used_titles` held in
 * memory, and the append-only file `used_titles.txt` it is loaded from at start-up.
 */
module Registry {
  import opened Wrappers
  import opened Text
  import opened Lines

  /** The content of the title file; `None` while the file does not exist. */
  type Store = Option<string>

  /** The text of the store, an absent file reading as empty. */
  function StoreText(store: Store): string {
    match store
    case None => []
    case Some(text) => text
  }

  /** The store as `save_used_title` alone leaves it: absent, empty or ending in `\n`. */
  predicate StoreWellFormed(store: Store) {
    WellFormed(StoreText(store))
  }

  /** The lines, each stripped, as a set. */
  function StrippedSet(lines: seq<string>): set<string> {
    set l | l in lines :: Strip(l)
  }

  /** One more line adds its stripped form to the set and nothing else. */
  lemma LemmaStrippedSetAppend(lines: seq<string>, u: string)
    ensures StrippedSet(lines + [u]) == StrippedSet(lines) + {Strip(u)}
  {
    var all := lines + [u];
    forall t | t in StrippedSet(all) ensures t in StrippedSet(lines) + {Strip(u)} {
      var l :| l in all && t == Strip(l);
      if l != u {
        assert l in lines;
      }
    }
    forall t | t in StrippedSet(lines) ensures t in StrippedSet(all) {
      var l :| l in lines && t == Strip(l);
      assert l in all;
    }
    assert u in all;
  }

  /** A saved line, `\n` included, adds the stripped title to the set. */
  lemma LemmaStrippedSetAppendLine(lines: seq<string>, title: string)
    ensures StrippedSet(lines + [title + "\n"]) == StrippedSet(lines) + {Strip(title)}
  {
    LemmaStrippedSetAppend(lines, title + "\n");
    LemmaStripNewline(title);
  }

  /** `load_used_titles`: the set of stripped lines of the file, empty when it is absent. */
  function LoadUsedTitles(store: Store): (used: set<string>)
    ensures store.None? ==> used == {}
    ensures forall t :: t in used ==> IsStripped(t)
  {
    match store
    case None => {}
    case Some(text) => StrippedSet(ReadLines(text))
  }

  /** `save_used_title`: opens the file for appending (creating it if needed) and writes
      the title followed by `\n`. */
  function SaveUsedTitle(store: Store, title: string): (r: Store)
    ensures r.Some?
    ensures StoreWellFormed(r)
    ensures StoreWellFormed(store) && '\n' !in title ==>
              ReadLines(StoreText(r)) == ReadLines(StoreText(store)) + [title + "\n"]
  {
    LemmaAppendTitleLine(store, title);
    Some(StoreText(store) + title + "\n")
  }

  /** Appending `title` and `\n` to a store that `save_used_title` alone wrote adds
      exactly one line to what `readlines` returns. */
  lemma LemmaAppendTitleLine(store: Store, title: string)
    ensures StoreWellFormed(store) && '\n' !in title ==>
              ReadLines(StoreText(store) + title + "\n") == ReadLines(StoreText(store)) + [title + "\n"]
  {
    if StoreWellFormed(store) && '\n' !in title {
      LemmaReadLinesAppend(StoreText(store), title);
    }
  }

  /** Saving a title and loading the file again adds exactly the stripped title to what
      loading returned before. */
  lemma LemmaSaveThenLoad(store: Store, title: string)
    requires StoreWellFormed(store)
    requires '\n' !in title
    ensures LoadUsedTitles(SaveUsedTitle(store, title)) == LoadUsedTitles(store) + {Strip(title)}
  {
    var lines := ReadLines(StoreText(store));
    assert LoadUsedTitles(store) == StrippedSet(lines) by {
      if store.None? {
        assert lines == [];
      }
    }
    var saved := SaveUsedTitle(store, title);
    assert LoadUsedTitles(saved) == StrippedSet(ReadLines(StoreText(saved)));
    assert ReadLines(StoreText(saved)) == lines + [title + "\n"];
    LemmaStrippedSetAppendLine(lines, title);
  }

  /** A title with no surrounding whitespace and no line feed is found again when the
      file is loaded after saving it. */
  lemma LemmaSavedTitleReloads(store: Store, title: string)
    requires StoreWellFormed(store)
    requires '\n' !in title && IsStripped(title)
    ensures title in LoadUsedTitles(SaveUsedTitle(store, title))
  {
    LemmaSaveThenLoad(store, title);
    LemmaStripStripped(title);
  }

  /** The in-memory set together with the file backing it. */
  datatype Registry = Registry(used: set<string>, store: Store)

  /** The registry as the program builds it at start-up (botnick.py:37). */
  function Startup(store: Store): (reg: Registry)
    ensures reg.store == store
    ensures store.None? ==> reg.used == {}
  {
    Registry(LoadUsedTitles(store), store)
  }

  /** The in-memory set is exactly what reloading the file would give. */
  predicate Consistent(reg: Registry) {
    StoreWellFormed(reg.store) && reg.used == LoadUsedTitles(reg.store)
  }

  /** Retiring a title: `used_titles.add(title)` followed by `save_used_title(title)`.
      The set gains the title and the file gains one line holding it. */
  function Reserve(reg: Registry, title: string): (r: Registry)
    ensures title in r.used && reg.used <= r.used && r.used - reg.used <= {title}
    ensures StoreWellFormed(reg.store) && '\n' !in title ==>
              ReadLines(StoreText(r.store)) == ReadLines(StoreText(reg.store)) + [title + "\n"]
  {
    Registry(reg.used + {title}, SaveUsedTitle(reg.store, title))
  }

  /** A registry loaded from a well-formed file is consistent with it. */
  lemma LemmaStartupConsistent(store: Store)
    requires StoreWellFormed(store)
    ensures Consistent(Startup(store))
  {
  }

  /** Reserving a title with no surrounding whitespace and no line feed keeps the
      in-memory set equal to what a reload would give. */
  lemma LemmaReserveKeepsConsistent(reg: Registry, title: string)
    requires Consistent(reg)
    requires '\n' !in title && IsStripped(title)
    ensures Consistent(Reserve(reg, title))
  {
    LemmaSaveThenLoad(reg.store, title);
    LemmaStripStripped(title);
  }

  /** A title with leading whitespace stays in the in-memory set but is lost on reload:
      `load_used_titles` strips every line, so after a restart the title is no longer
      seen as used. */
  lemma LemmaUnstrippedTitleLostOnReload(reg: Registry, title: string)
    requires title != [] && IsSpace(title[0])
    ensures title in Reserve(reg, title).used
    ensures title !in LoadUsedTitles(Reserve(reg, title).store)
  {
  }

  /** Saving to a file whose last line lacks its `\n` glues the title onto that line:
      reloading yields the earlier lines and the glued line, not the title. */
  lemma LemmaUnterminatedStoreMergesLines(prefix: string, line: string, title: string)
    requires WellFormed(prefix)
    requires '\n' !in line && '\n' !in title
    ensures LoadUsedTitles(SaveUsedTitle(Some(prefix + line), title))
         == LoadUsedTitles(Some(prefix)) + {Strip(line + title)}
  {
    var glued := line + title;
    assert '\n' !in glued by {
      forall k | 0 <= k < |glued| ensures glued[k] != '\n' {
        if k < |line| { assert glued[k] == line[k]; } else { assert glued[k] == title[k - |line|]; }
      }
    }
    var saved := SaveUsedTitle(Some(prefix + line), title);
    assert StoreText(saved) == prefix + glued + "\n";
    LemmaReadLinesAppend(prefix, glued);
    assert ReadLines(StoreText(saved)) == ReadLines(prefix) + [glued + "\n"];
    LemmaStrippedSetAppendLine(ReadLines(prefix), glued);
  }
}

=== FILE: replies.dfy ===
/**
 * The three reply filters passed to `bot.wait_for` (botnick.py:67, 77, 83) and the
 * values read from an accepted reply (botnick.py:69, 79, 85). Each filter checks the
 * author; none checks the channel the reply was sent on.
 */
module Replies {
  import opened Text
  import opened Labels

  /** The member being titled: an identity (what `m.author == member` compares) and the
      account name the fallback label is built from. */
  datatype Member = Member(id: nat, name: string)

  /** A message the bot sees: who sent it, where, and its text. */
  datatype Message = Message(author: nat, channel: nat, content: string)

  /** Longest display name the dialogue accepts. */
  const MaxNameLength: nat := 32

  /** `check_choice`: from the member, all digits, value between 1 and 5. */
  predicate CheckChoice(m: Message, member: Member) {
    m.author == member.id && IsDigits(m.content) && 1 <= DigitsValue(m.content) <= 5
  }

  /** `check_name`: from the member, at most 32 characters once stripped. */
  predicate CheckName(m: Message, member: Member) {
    m.author == member.id && |Strip(m.content)| <= MaxNameLength
  }

  /** `check_order`: from the member, `before` or `after` in any letter case. */
  predicate CheckOrder(m: Message, member: Member) {
    m.author == member.id && (Lower(m.content) == Before || Lower(m.content) == After)
  }

  /** A choice reply in closed form: zero or more `0`s, then one digit from 1 to 5. */
  predicate IsChoiceText(s: string) {
    |s| >= 1 && (forall i :: 0 <= i < |s| - 1 ==> s[i] == '0') && '1' <= s[|s| - 1] <= '5'
  }

  /** `int(choice.content) - 1` (botnick.py:69): the option index the reply selects,
      which is always a valid index into the five options. */
  function ChoiceIndex(content: string): (i: nat)
    requires IsDigits(content) && 1 <= DigitsValue(content) <= 5
    ensures i < 5
  {
    DigitsValue(content) - 1
  }

  /** `check_choice` accepts exactly the member's replies written as zeros followed by one
      digit from 1 to 5, and the index they select is that last digit minus one. */
  lemma LemmaChoiceAccepted(m: Message, member: Member)
    ensures CheckChoice(m, member) <==> m.author == member.id && IsChoiceText(m.content)
    ensures CheckChoice(m, member) ==>
              ChoiceIndex(m.content) == DigitValue(m.content[|m.content| - 1]) - 1
  {
    var s := m.content;
    if IsDigits(s) {
      var p := s[..|s| - 1];
      LemmaDigitsValueZero(p);
      assert DigitsValue(s) == 10 * DigitsValue(p) + DigitValue(s[|s| - 1]);
      if IsChoiceText(s) {
        assert forall i :: 0 <= i < |p| ==> p[i] == s[i];
      }
      if 1 <= DigitsValue(s) <= 5 {
        assert forall i :: 0 <= i < |s| - 1 ==> s[i] == p[i];
      }
    }
  }

  /** The display name read from an accepted reply (botnick.py:79). */
  function AcceptedName(m: Message): (name: string)
    ensures IsStripped(name)
    ensures |name| <= |m.content|
  {
    Strip(m.content)
  }

  /** An accepted name has no surrounding whitespace and at most 32 characters; any
      such text sent by the member is accepted as itself. */
  lemma LemmaNameAccepted(m: Message, member: Member)
    ensures CheckName(m, member) ==> |AcceptedName(m)| <= MaxNameLength
    ensures m.author == member.id && IsStripped(m.content) && |m.content| <= MaxNameLength ==>
              CheckName(m, member) && AcceptedName(m) == m.content
  {
    if IsStripped(m.content) {
      LemmaStripStripped(m.content);
    }
  }

  /** The 32-character bound applies to the stripped reply: a name padded with any
      whitespace is accepted exactly when the name itself is short enough, and the
      padding is dropped. */
  lemma LemmaPaddedNameAccepted(m: Message, member: Member, a: string, core: string, b: string)
    requires m.content == a + core + b
    requires AllSpace(a) && AllSpace(b) && IsStripped(core)
    ensures CheckName(m, member) <==> m.author == member.id && |core| <= MaxNameLength
    ensures AcceptedName(m) == core
  {
    LemmaStripUnique(a, core, b);
  }

  /** The title position read from an accepted reply (botnick.py:85). */
  function AcceptedPosition(m: Message): (position: string)
    ensures |position| == |m.content|
  {
    Lower(m.content)
  }

  /** `s` spells the lower-case word `w`, each letter in either case. */
  predicate SpellsIgnoringCase(s: string, w: string) {
    |s| == |w| && forall i :: 0 <= i < |s| ==> s[i] == w[i] || s[i] as int == w[i] as int - 32
  }

  /** `check_order` accepts exactly the member's replies spelling `before` or `after` in
      any mix of cases, with nothing around them, and the position read is then one of
      the two words. */
  lemma LemmaOrderAccepted(m: Message, member: Member)
    ensures CheckOrder(m, member) <==>
              m.author == member.id && (SpellsIgnoringCase(m.content, Before) || SpellsIgnoringCase(m.content, After))
    ensures CheckOrder(m, member) ==> AcceptedPosition(m) == Before || AcceptedPosition(m) == After
  {
    LemmaLowerMatches(m.content, Before);
    LemmaLowerMatches(m.content, After);
  }

  /** The channel a reply is sent on never matters: the same text from the member is
      accepted, or ignored, wherever it was posted. */
  lemma LemmaRepliesIgnoreChannel(m: Message, channel: nat, member: Member)
    ensures CheckChoice(m, member) == CheckChoice(m.(channel := channel), member)
    ensures CheckName(m, member) == CheckName(m.(channel := channel), member)
    ensures CheckOrder(m, member) == CheckOrder(m.(channel := channel), member)
  {
  }

  /** Replies from anyone other than the member are ignored at every step. */
  lemma LemmaOtherAuthorsIgnored(m: Message, member: Member)
    requires m.author != member.id
    ensures !CheckChoice(m, member) && !CheckName(m, member) && !CheckOrder(m, member)
  {
  }
}

=== FILE: text.dfy ===
/**
 * The handful of Python string operations the onboarding dialogue relies on:
 * `str.strip()`, `str.lower()`, `str.isdigit()` and `int()` on a digit string.
 * Only the ASCII part of each is modelled.
 */
module Text {

  /** `str.isspace()` restricted to ASCII: tab, line feed, vertical tab, form feed,
      carriage return, the four separators 0x1C..0x1F, and space. */
  predicate IsSpace(c: char) {
    c == ' ' || '\t' <= c <= '\r' || '\U{1C}' <= c <= '\U{1F}'
  }

  predicate AllSpace(s: string) {
    forall i :: 0 <= i < |s| ==> IsSpace(s[i])
  }

  /** A string with no whitespace at either end, i.e. a fixed point of `Strip`. */
  predicate IsStripped(s: string) {
    s == [] || (!IsSpace(s[0]) && !IsSpace(s[|s| - 1]))
  }

  /** `str.lstrip()`: drops the leading whitespace and nothing else. */
  function StripLeft(s: string): (r: string)
    ensures |r| <= |s| && r == s[|s| - |r|..]
    ensures AllSpace(s[..|s| - |r|])
    ensures r == [] || !IsSpace(r[0])
  {
    if |s| > 0 && IsSpace(s[0]) then StripLeft(s[1..]) else s
  }

  /** `str.rstrip()`: drops the trailing whitespace and nothing else. */
  function StripRight(s: string): (r: string)
    ensures |r| <= |s| && r == s[..|r|]
    ensures AllSpace(s[|r|..])
    ensures r == [] || !IsSpace(r[|r| - 1])
  {
    if |s| > 0 && IsSpace(s[|s| - 1]) then StripRight(s[..|s| - 1]) else s
  }

  /** `str.strip()`: removes the whitespace at both ends. */
  function Strip(s: string): (r: string)
    ensures IsStripped(r)
    ensures |r| <= |s|
  {
    StripLeft(StripRight(s))
  }

  /** Stripping a string that is already stripped changes nothing. */
  lemma LemmaStripStripped(s: string)
    requires IsStripped(s)
    ensures Strip(s) == s
  {
  }

  /** `StripRight` removes exactly a whitespace suffix sitting after a non-space end. */
  lemma {:induction false} LemmaStripRightExact(x: string, b: string)
    requires AllSpace(b)
    requires x == [] || !IsSpace(x[|x| - 1])
    ensures StripRight(x + b) == x
    decreases |b|
  {
    if b != [] {
      var s := x + b;
      assert s[..|s| - 1] == x + b[..|b| - 1];
      LemmaStripRightExact(x, b[..|b| - 1]);
    } else {
      assert x + b == x;
    }
  }

  /** `StripLeft` removes exactly a whitespace prefix sitting before a non-space start. */
  lemma {:induction false} LemmaStripLeftExact(a: string, x: string)
    requires AllSpace(a)
    requires x == [] || !IsSpace(x[0])
    ensures StripLeft(a + x) == x
    decreases |a|
  {
    if a != [] {
      var s := a + x;
      assert s[1..] == a[1..] + x;
      LemmaStripLeftExact(a[1..], x);
    } else {
      assert a + x == x;
    }
  }

  /** `Strip` is fully characterised by its contract: whatever whitespace surrounds a
      stripped core, `Strip` returns exactly that core. */
  lemma LemmaStripUnique(a: string, core: string, b: string)
    requires AllSpace(a) && AllSpace(b) && IsStripped(core)
    ensures Strip(a + core + b) == core
  {
    if core == [] {
      var s := a + core + b;
      assert AllSpace(s) by {
        forall i | 0 <= i < |s| ensures IsSpace(s[i]) {
          if i < |a| { assert s[i] == a[i]; } else { assert s[i] == b[i - |a|]; }
        }
      }
    } else {
      LemmaStripRightExact(a + core, b);
      LemmaStripLeftExact(a, core);
    }
  }

  /** Whitespace appended at the end, such as the `\n` a line keeps, does not change
      what `Strip` returns. */
  lemma LemmaStripTrailingSpace(x: string, b: string)
    requires AllSpace(b)
    ensures Strip(x + b) == Strip(x)
  {
    var y := StripRight(x);
    var c := x[|y|..];
    assert x == y + c;
    assert AllSpace(c + b) by {
      forall k | 0 <= k < |c + b| ensures IsSpace((c + b)[k]) {
        if k < |c| { assert (c + b)[k] == c[k]; } else { assert (c + b)[k] == b[k - |c|]; }
      }
    }
    assert x + b == y + (c + b);
    LemmaStripRightExact(y, c + b);
  }

  /** The `\n` a line read by `readlines` keeps is stripped away. */
  lemma LemmaStripNewline(x: string)
    ensures Strip(x + "\n") == Strip(x)
  {
    assert AllSpace("\n");
    LemmaStripTrailingSpace(x, "\n");
  }

  /** `Strip` is idempotent. */
  lemma LemmaStripIdempotent(s: string)
    ensures Strip(Strip(s)) == Strip(s)
  {
    LemmaStripStripped(Strip(s));
  }

  /** ASCII part of `str.lower()` on one character. */
  function LowerChar(c: char): char {
    if 'A' <= c <= 'Z' then (c as int + 32) as char else c
  }

  /** ASCII part of `str.lower()`. */
  function Lower(s: string): (r: string)
    ensures |r| == |s|
  {
    seq(|s|, i requires 0 <= i < |s| => LowerChar(s[i]))
  }

  /** `str.lower()` accepts `s` as a spelling of the lower-case word `w` exactly when
      `s` matches `w` letter for letter, each letter in either case. */
  lemma LemmaLowerMatches(s: string, w: string)
    requires forall i :: 0 <= i < |w| ==> 'a' <= w[i] <= 'z'
    ensures Lower(s) == w <==>
              |s| == |w| && forall i :: 0 <= i < |s| ==> s[i] == w[i] || s[i] as int == w[i] as int - 32
  {
    if Lower(s) == w {
      forall i | 0 <= i < |s|
        ensures s[i] == w[i] || s[i] as int == w[i] as int - 32
      {
        assert Lower(s)[i] == LowerChar(s[i]);
      }
    }
    if |s| == |w| && forall i :: 0 <= i < |s| ==> s[i] == w[i] || s[i] as int == w[i] as int - 32 {
      forall i | 0 <= i < |s|
        ensures Lower(s)[i] == w[i]
      {
      }
    }
  }

  predicate IsDigit(c: char) {
    '0' <= c <= '9'
  }

  /** `str.isdigit()` restricted to ASCII: non-empty and made only of digits. */
  predicate IsDigits(s: string) {
    |s| > 0 && forall i :: 0 <= i < |s| ==> IsDigit(s[i])
  }

  /** The value of one ASCII digit. */
  function DigitValue(c: char): (v: nat)
    requires IsDigit(c)
    ensures v <= 9
  {
    c as int - '0' as int
  }

  /** `int(s)` for a string of ASCII digits, leading zeros allowed. */
  function DigitsValue(s: string): (v: nat)
    requires forall i :: 0 <= i < |s| ==> IsDigit(s[i])
    decreases |s|
  {
    if s == [] then 0 else 10 * DigitsValue(s[..|s| - 1]) + DigitValue(s[|s| - 1])
  }

  /** A digit string is worth zero exactly when every digit is `0`. */
  lemma {:induction false} LemmaDigitsValueZero(s: string)
    requires forall i :: 0 <= i < |s| ==> IsDigit(s[i])
    ensures DigitsValue(s) == 0 <==> forall i :: 0 <= i < |s| ==> s[i] == '0'
    decreases |s|
  {
    if s != [] {
      var p := s[..|s| - 1];
      LemmaDigitsValueZero(p);
      if DigitsValue(s) == 0 {
        forall i | 0 <= i < |s| ensures s[i] == '0' {
          if i < |s| - 1 { assert s[i] == p[i]; }
        }
      }
      if forall i :: 0 <= i < |s| ==> s[i] == '0' {
        forall i | 0 <= i < |p| ensures p[i] == '0' { assert p[i] == s[i]; }
      }
    }
  }
}

=== FILE: word_pool.dfy ===
/**
 * The two word pools (`load_words_from_file`, botnick.py:26-31): the lines of a text
 * file, or nothing at all when the file does not exist.
 */
module WordPool {
  import opened Wrappers
  import opened Text
  import opened Lines

  /** The words of a word file; `None` stands for a file that does not exist. */
  function LoadWordsFromFile(file: Option<string>): (words: seq<string>)
    ensures file.None? ==> words == []
    ensures forall j :: 0 <= j < |words| ==> NoLineBreak(words[j])
  {
    match file
    case None => []
    case Some(text) => SplitLines(text)
  }

  /** A file written with one word per line loads back as exactly those words. */
  lemma LemmaLoadWordsRoundTrip(words: seq<string>)
    requires forall j :: 0 <= j < |words| ==> NoLineBreak(words[j])
    ensures LoadWordsFromFile(Some(JoinLines(words))) == words
  {
    LemmaSplitJoin(words);
  }

  /** A word file whose last word has no final newline still yields that word, after the
      words of the complete lines. */
  lemma LemmaLoadWordsUnterminated(words: seq<string>, last: string)
    requires forall j :: 0 <= j < |words| ==> NoLineBreak(words[j])
    requires last != [] && NoLineBreak(last)
    ensures LoadWordsFromFile(Some(JoinLines(words) + last)) == words + [last]
  {
    LemmaSplitJoinLast(words, last);
  }

  /** A word that yields titles the registry can store and reload unchanged:
      non-empty, no whitespace at either end, no line boundary inside. */
  predicate CleanWord(w: string) {
    w != [] && IsStripped(w) && NoLineBreak(w)
  }

  predicate CleanPool(words: seq<string>) {
    forall j :: 0 <= j < |words| ==> CleanWord(words[j])
  }
}

=== FILE: wrappers.dfy ===
/** Failure-carrying values shared by the rest of the model. */
module Wrappers {

  /** A value that may be missing: an absent file, an unmatched reply. */
  datatype Option<+T> = None | Some(value: T)

  /** The outcome of an operation that can fail with an error of type `E`. */
  datatype Result<+T, +E> = Success(value: T) | Failure(error: E)
}
